=== FILE: README.md ===
# Party-trivia game state machine in Dafny

This project models the game aggregate of a multiplayer party-trivia backend. Players
join a game. The leader starts it. Each round, every player submits an answer to a
question, then every player selects the answer they believe. Between rounds the players
declare themselves ready. The game ends when the round budget is used up, when the
leader ends it, or when too few players are left. At the end, each player's per-game
statistics delta (correct answers, times psyched, times psyching others) is added to
their lifetime statistics.

The model is purely functional. A `World` pairs the `Game` record with a directory of
the player records the game reads and writes: each player's current game (the
back-reference) and lifetime `Stat`. Each operation returns either the `GameError` the
source throws or the new `World`. The operations follow the source AS WRITTEN, defects
included. Module `Corrected` holds the evidently intended variants. Module `Findings`
shows the differences on concrete games.

Files and modules:

- `basics.dfy` (`Basics`): player and game ids, `Option`, `Result`, and the error reasons.
- `stats.dfy` (`Stats`): the three counters and their component-wise sum.
- `rounds.dfy` (`Rounds`): an abstract round. Its source class is not part of this
  model. ASSUMPTION: answers and selections are kept keyed by player, and "all submitted"
  for a roster of n means n distinct players have answered (the same for selections).
- `state.dfy` (`GameState`): the status enum, `Game`, `PlayerRecord`, `World`.
- `aggregation.dfy` (`Aggregation`): the private end-game fold. It has a functional
  definition and a loop method that visits the roster the way the source does.
- `game.dfy` (`GameOps`): the public operations. Each operation with an inverted
  membership check is split into the check and the step that follows it.
- `transitions.dfy` (`Transitions`): the operations as steps of a state machine. It
  holds the status edges and the invariant that every game created in PLAYERS_JOINING
  keeps over any run of requests.
- `pairs.dfy` (`OperationPairs`): the operations that have a partner, paired with it:
  join with leave, readiness with its withdrawal, a new round and a submission with the
  current-round lookup, and an explicit end with a second end.
- `corrected.dfy` (`Corrected`), `findings.dfy` (`Findings`): see "## Findings".

The model follows the code, including these departures from its evident intent:

- Selection and readiness refuse roster members.
- The ready set is not cleared when a new round starts.
- A player who leaves stays in the ready set.
- Removing a player from an ENDED game can fold the statistics a second time.
- The bound rounds ≤ numRounds does not hold: a game whose budget is below one still
  plays its first round. `Transitions.Inv` therefore states
  `|rounds| <= numRounds || |rounds| <= 1`.

Java `NullPointerException`s become the error `NullDereference`. This happens when a
player's current game is null (Game.java:91 and 179) or a player has no per-game delta
(Game.java:182). `playerStats` is never written inside Game.java; here it is part of
the game state that the caller supplies.

## Model

| member | source | states |
|---|---|---|
| Rounds.RecordAnswer | src/main/java/com/example/game/model/Game.java:128-130 | The player's answer is stored under the player and replaces an earlier one. Other answers are kept. The count of distinct answerers grows only for a first answer. |
| Rounds.RecordSelection | src/main/java/com/example/game/model/Game.java:139-141 | The selection is stored under the selecting player and replaces an earlier one. The distinct-selector count grows only for a first selection. |
| Aggregation.EndGameFold | src/main/java/com/example/game/model/Game.java:176-187 | Fails with a null dereference iff some roster player lacks a current game or a delta. Otherwise the status becomes ENDED and nothing else in the game changes. Each roster player's lifetime counts become old + delta. A back-reference that pointed here becomes none, and other back-references are kept. Non-roster players are untouched. Together these are `Aggregation.Folded`, the fold's effect that the ending paths of the operations restate. |
| Aggregation.EndGameLoop | src/main/java/com/example/game/model/Game.java:176-187 | The source's per-player loop over the roster, in any visiting order, gives exactly the result of EndGameFold. |
| GameOps.Create | src/main/java/com/example/game/model/Game.java:65-77 | A game built in PLAYERS_JOINING has the leader as its only player, and the leader's current game is this game. In any other status the leader's join is refused and swallowed, so the roster is empty and no player changes. No rounds, nobody ready, no deltas. |
| GameOps.AddPlayer | src/main/java/com/example/game/model/Game.java:79-85 | Fails iff the status is not PLAYERS_JOINING. On success the player is on the roster and nothing else in the game changes. The player's current game is this game and their statistics are kept. Every other player is untouched. |
| GameOps.Detach | src/main/java/com/example/game/model/Game.java:87-92 | A non-member is refused. A member with a null current game is a null dereference. Otherwise the player leaves the roster, and their back-reference becomes none only if it pointed here. |
| GameOps.RemovePlayer | src/main/java/com/example/game/model/Game.java:87-96 | The Detach errors, then: the status is ENDED afterwards iff it was ENDED, or the roster is now empty, or it has one player and the status is not PLAYERS_JOINING. In that case the result is the fold of the detached world: it succeeds iff every remaining player can be settled, adds each delta, sets back-references to this game to none, keeps other back-references, and leaves non-roster players untouched. Otherwise the result is exactly Detach's: the removal succeeds, and the status and every other player are unchanged. |
| GameOps.StartNewRound | src/main/java/com/example/game/model/Game.java:109-119 | Status SUBMITTING_ANSWERS. Exactly one round is appended, numbered previous count + 1, with the given question and no answers or selections. Earlier rounds are unchanged. The round has an Ellen answer iff the game has Ellen answers. The ready set and everything else are unchanged. |
| GameOps.StartGame | src/main/java/com/example/game/model/Game.java:98-107 | Fails with AlreadyStarted, then TooFewPlayers (fewer than 2), then NotLeader, in that order. It succeeds iff the game is joining with at least 2 players and the leader asks. The result is StartNewRound. |
| GameOps.CurrentRound | src/main/java/com/example/game/model/Game.java:170-174 | Fails iff there are no rounds. Otherwise it returns the last round. |
| GameOps.SubmitAnswer | src/main/java/com/example/game/model/Game.java:121-133 | Fails on an empty answer, then on a non-member, then outside SUBMITTING_ANSWERS, then when no round exists. On success only the current round changes, gaining the answer. The status becomes SELECTING_ANSWERS iff the distinct answerers equal the roster size, and stays otherwise. |
| GameOps.SelectAnswer | src/main/java/com/example/game/model/Game.java:134-136 | As written, a roster member is refused. Anyone else proceeds to SelectionStep. |
| GameOps.SelectionStep | src/main/java/com/example/game/model/Game.java:137-146 | Fails outside SELECTING_ANSWERS or with no round. Otherwise the selection is recorded on the current round. With all selections in, the status becomes WAITING_FOR_READY if rounds < numRounds, else the result is the fold of the world with the selection recorded. Without them the status stays. In the selecting phase with a round, it succeeds whenever the selections are incomplete or rounds remain. When the selection completes the last round, it succeeds iff every roster player can be settled, and otherwise fails with a null dereference. On the ending path the deltas are folded, back-references to this game set to none, others kept, and non-roster players untouched. |
| GameOps.PlayerIsReady | src/main/java/com/example/game/model/Game.java:149-151 | As written, a roster member is refused. Anyone else proceeds to ReadyStep. |
| GameOps.ReadyStep | src/main/java/com/example/game/model/Game.java:152-159 | Fails outside WAITING_FOR_READY. The player is added to the ready set. If rounds == numRounds the result is the fold of the world with the player ready: it fails only with a null dereference, adds the deltas, sets back-references to this game to none, keeps others, and leaves non-roster players untouched. Otherwise, if the ready set is as large as the roster, a new round starts with the ready set kept; if not, only the ready set changes. |
| GameOps.PlayerIsNotReady | src/main/java/com/example/game/model/Game.java:162-164 | As written, a roster member is refused. Anyone else proceeds to UnreadyStep. |
| GameOps.UnreadyStep | src/main/java/com/example/game/model/Game.java:165-167 | Fails iff the status is not WAITING_FOR_READY. Otherwise only the player's membership of the ready set changes: they are removed. |
| GameOps.EndGame | src/main/java/com/example/game/model/Game.java:189-195 | Fails with AlreadyEnded on an ended game, else NotLeader for a non-leader. Otherwise the result is the fold: it succeeds iff every roster player can be settled, and the result is ENDED with each roster player's lifetime counts = old + delta and their back-reference to this game set to none. Back-references to other games are kept and non-roster players are untouched. |
| Transitions.StepFollowsEdge | src/main/java/com/example/game/model/Game.java:79-195 | Every successful operation moves the status along an edge: stay, PLAYERS_JOINING→SUBMITTING, SUBMITTING→SELECTING, SELECTING→WAITING, WAITING→SUBMITTING, or any→ENDED. |
| Transitions.EndedIsAbsorbing | src/main/java/com/example/game/model/Game.java:79-195 | On an ENDED game only removePlayer can succeed. The game stays ENDED and its rounds are untouched. |
| Transitions.RunStaysEnded | src/main/java/com/example/game/model/Game.java:79-195 | Over any run of requests, an ended game stays ended. |
| Transitions.CreateEstablishesInv | src/main/java/com/example/game/model/Game.java:65-77 | A game created in PLAYERS_JOINING satisfies the invariant. |
| Transitions.NewRoundKeepsNumbering | src/main/java/com/example/game/model/Game.java:113-118 | Appending a round keeps the rounds numbered 1, 2, 3, ... |
| Transitions.StepPreservesInv | src/main/java/com/example/game/model/Game.java:79-195 | Every successful operation keeps the invariant. The rounds stay numbered from 1. A joining game has no rounds and nobody ready. A game in play has a round. The budget holds except for a sole first round. A waiting game has rounds left. No roster member is ready. |
| Transitions.LeaveKeepsInv | src/main/java/com/example/game/model/Game.java:87-96 | A successful removal keeps the invariant. |
| Transitions.SelectKeepsInv | src/main/java/com/example/game/model/Game.java:134-147 | A successful selection keeps the invariant. |
| Transitions.ReadyKeepsInv | src/main/java/com/example/game/model/Game.java:149-160 | A successful readiness keeps the invariant. |
| Transitions.RunPreservesInv | src/main/java/com/example/game/model/Game.java:79-195 | The invariant holds after any sequence of requests, where refused requests change nothing. |
| Transitions.ReachableKeepsInv | src/main/java/com/example/game/model/Game.java:65-195 | Every game reachable from creation in PLAYERS_JOINING satisfies the invariant. In particular, as written, no roster member is ever ready. |
| Transitions.StartGameFirstRound | src/main/java/com/example/game/model/Game.java:98-119 | In a reachable game a successful start yields exactly one round, numbered 1, in SUBMITTING_ANSWERS. |
| Transitions.ReadyNeverEndsGame | src/main/java/com/example/game/model/Game.java:142-159 | In a reachable game the end-game branch of readiness never fires. Readiness never ends the game and never touches a player record. |
| Transitions.StepFreezesRounds | src/main/java/com/example/game/model/Game.java:109-146 | No operation removes a round or changes any round before the current one. |
| Transitions.RunFreezesRounds | src/main/java/com/example/game/model/Game.java:109-146 | Over any run of requests, rounds are never removed and superseded rounds never change. |
| OperationPairs.JoinThenLeave | src/main/java/com/example/game/model/Game.java:79-96 | In a joining game with another player, joining then leaving restores the game exactly. The leaver's back-reference ends cleared and no other record changes. |
| OperationPairs.CurrentRoundAfterNewRound | src/main/java/com/example/game/model/Game.java:109-119 | After a new round, the current-round lookup succeeds and returns the fresh round, numbered previous count + 1, with an Ellen answer iff enabled. The former current round is kept in place. |
| OperationPairs.CurrentRoundAfterSubmit | src/main/java/com/example/game/model/Game.java:121-133 | After a successful submission, the current round holds the submitted text for the player. All other answers, the selections and the round number are as before. |
| OperationPairs.ReadyThenNotReady | src/main/java/com/example/game/model/Game.java:149-168 | Readiness then withdrawal by the same player, when readiness neither ends the game nor starts a round, restores the world exactly. |
| OperationPairs.EndGameOnlyOnce | src/main/java/com/example/game/model/Game.java:189-195 | After a successful explicit end, a second explicit end is refused with AlreadyEnded. The lifetime counts are old + delta, added once. |
| Corrected.SelectAnswerFixed | src/main/java/com/example/game/model/Game.java:134-147 | A non-member is refused. A member proceeds to the as-written selection step. |
| Corrected.PlayerIsReadyFixed | src/main/java/com/example/game/model/Game.java:149-160 | A non-member is refused. A member's readiness succeeds iff the as-written readiness step does, and fails with that step's error. When that step starts a new round, the result is the step's world with the ready set emptied and every player record as the step left it; otherwise the result is the step's. |
| Corrected.PlayerIsNotReadyFixed | src/main/java/com/example/game/model/Game.java:162-168 | A non-member is refused. A member proceeds to the as-written withdrawal step. |
| Corrected.RemovePlayerFixed | src/main/java/com/example/game/model/Game.java:87-96 | On a game that has not ended it succeeds iff RemovePlayer does, with the same error or the same world except that the leaver is also out of the ready set. On an ENDED game it only detaches the player, with no fold, and also drops the leaver's readiness. |
| Corrected.MembersCanSelect | src/main/java/com/example/game/model/Game.java:134-147 | With the fixed check, a member's selection in a started selecting phase succeeds whenever the fold cannot fail. The phase is left iff every roster member has selected. |
| Corrected.ReadyFixedKeepsReadyWithinRoster | src/main/java/com/example/game/model/Game.java:149-160 | From a game whose ready set lies within the roster (which Corrected.RunFixedKeepsFreshReadiness shows every corrected run keeps), the fixed readiness keeps it there. A new round starts only when every roster player is ready, and then with nobody ready. |
| Corrected.NotReadyFixedKeepsReadyWithinRoster | src/main/java/com/example/game/model/Game.java:162-168 | With the fix, withdrawal removes exactly the player from the ready set, which stays within the roster. |
| Corrected.StepFixedKeepsFreshReadiness | src/main/java/com/example/game/model/Game.java:79-195 | Every successful corrected operation keeps FreshReadiness: only roster players are ready, and nobody is ready outside the waiting phase (ENDED aside). |
| Corrected.RunFixedKeepsFreshReadiness | src/main/java/com/example/game/model/Game.java:79-195 | FreshReadiness holds after any run of corrected requests, refused requests changing nothing. |
| Corrected.CreateHasFreshReadiness | src/main/java/com/example/game/model/Game.java:65-77 | A created game has FreshReadiness. |
| Corrected.NewRoundOnlyWhenAllReady | src/main/java/com/example/game/model/Game.java:149-160 | Under the corrected operations, a waiting game with FreshReadiness moves to a new round only through a readiness that completes the roster: every other roster player declared readiness in this waiting phase. |
| Corrected.RemoveFixedNeverRefolds | src/main/java/com/example/game/model/Game.java:87-96 | With the fix, a removal from an ended game keeps the game ENDED and leaves every lifetime statistic as it was. |
| Findings.BothAnsweredSelecting | src/main/java/com/example/game/model/Game.java:65-133 | Creating a two-player game, starting it and answering by both players reaches SELECTING_ANSWERS with one round and both back-references on the game. |
| Findings.RosterCannotSelectAsWritten | src/main/java/com/example/game/model/Game.java:134-136 | In that game neither roster player can select, but an outsider can. |
| Findings.OneRoundGameCompletesWhenFixed | src/main/java/com/example/game/model/Game.java:134-195 | With the fixed check, the one-round game ends after both selections. Each player's lifetime statistic is zero + their delta and their back-reference is cleared. A later explicit end is refused. |
| Findings.StaleReadinessAsWritten | src/main/java/com/example/game/model/Game.java:109-160 | As written, a three-round game starts round 2 with players 3 and 4 still ready. In round 2's waiting phase, one repeated readiness starts round 3. |
| Findings.RoundTwoStartsStillReady | src/main/java/com/example/game/model/Game.java:109-160 | First half of the previous row: round 2 starts with the ready set {3, 4}. |
| Findings.RoundThreeOnRepeatedReadiness | src/main/java/com/example/game/model/Game.java:121-160 | Second half: from such a round 2, after answers and selections, one readiness starts round 3. |
| Findings.FreshReadinessWhenFixed | src/main/java/com/example/game/model/Game.java:109-160 | With the fixes, the same game played by its roster starts round 2 with nobody ready. One readiness in round 2's waiting phase does not start round 3. |
| Findings.RoundTwoStartsNobodyReady | src/main/java/com/example/game/model/Game.java:109-160 | First half of the previous row: round 2 starts with nobody ready. |
| Findings.RoundTwoWaitsForEveryone | src/main/java/com/example/game/model/Game.java:121-160 | Second half: from such a round 2, after answers and selections, one readiness leaves the game waiting. |
| Findings.LeaverStaysReadyAsWritten | src/main/java/com/example/game/model/Game.java:87-96 | With the corrected readiness check but the removal as written, in a waiting game of a, b and c: b readies and leaves, b stays in the ready set, and a's readiness starts the next round although c never readied. |
| Findings.LeaverNotReadyWhenFixed | src/main/java/com/example/game/model/Game.java:87-96 | With the corrected removal the same play drops b's readiness, and a's readiness leaves the game waiting. |
| Findings.RemovalRefoldsEndedGame | src/main/java/com/example/game/model/Game.java:87-96 | As written, removing one of two players from an ENDED game adds the other player's delta to their lifetime statistics again. |
| Findings.RemovalKeepsStatsWhenFixed | src/main/java/com/example/game/model/Game.java:87-96 | With the fix, the same removal leaves that player's statistics unchanged. |

## Left out

- Question bank and Ellen answers: the source draws the question and the Ellen answer at random through an external utility. Both are parameters here. A mode with no questions is not modelled.
- The join code derived from the game id, and the JSON projection of the current round: not modelled. The projection is presentation, and the code derivation is external.
- The builder: replaced by `GameOps.Create`, which takes the same fields. Its defaults (10 rounds, no Ellen answers) are not modelled, because every field is passed explicitly. A missing (null) status from the builder is not modelled; a status is always given.
- startNewRound is public in the source but is treated as internal: it is reached only through startGame and playerIsReady. A direct call, like a call of the generated setters, is not a request in `Transitions.Op`. Such a call would start a round from any status, ENDED included, so the claims of `Transitions.StepFollowsEdge`, `Transitions.EndedIsAbsorbing`, `Transitions.RunStaysEnded` and `Transitions.StepPreservesInv` cover the requests in `Op` only.
- Persistence, JPA and JSON annotations, audit ids, the development controller, the security configuration, the round repository and the console output: not modelled, because they are plumbing with no game logic.
- Object identity: a game's identity (its `equals`) is modelled by its id field.
- Players are ids. A player missing from the directory reads as a fresh player with no current game and zero statistics.
- A null player argument, a null answer string, and concurrent requests: not modelled. The source relies on one request at a time.
- Partial effects before a Java exception are not modelled. The source can leave the roster reduced or some players folded before it throws a `NullPointerException`. Here a refused operation returns only the error.
- Stat objects are values: sharing of a Stat object between players, or between a delta and a lifetime Stat, is not modelled. The source adds to the lifetime Stat in place, so with such sharing its result could depend on the visiting order.
- The order in which the fold visits the roster is not fixed. `Aggregation.EndGameLoop` proves that the result does not depend on it.
- Java `int` overflow of the counters and of round numbers: not modelled (integers are unbounded).
- The round class is not part of this model. Its behaviour is the ASSUMPTION stated for module `Rounds`.
- `playerStats` is filled outside Game.java; here it is part of the given state.

## Findings

| source | as written | input that shows it | evidently intended | confidence | as-written member | corrected member |
|---|---|---|---|---|---|---|
| src/main/java/com/example/game/model/Game.java:135 | selectAnswer refuses a player who IS on the roster | game 7 of players 1 and 2, both answered, in SELECTING_ANSWERS: player 1 is refused, outsider 3 is accepted | refuse only players who are not on the roster | high; not executed | Findings.RosterCannotSelectAsWritten | Corrected.SelectAnswerFixed (Findings.OneRoundGameCompletesWhenFixed, Corrected.MembersCanSelect) |
| src/main/java/com/example/game/model/Game.java:150,163 | playerIsReady / playerIsNotReady refuse roster players | any reachable game: no roster player is ever in the ready set | only roster players declare or withdraw readiness | high; not executed | Transitions.ReachableKeepsInv | Corrected.PlayerIsReadyFixed, Corrected.PlayerIsNotReadyFixed (Corrected.ReadyFixedKeepsReadyWithinRoster, Corrected.NotReadyFixedKeepsReadyWithinRoster) |
| src/main/java/com/example/game/model/Game.java:109-119 | startNewRound keeps the ready set | three-round game, readiness by 3 and 4: round 2 starts with {3, 4} ready, and one repeated readiness of 3 starts round 3 | a new round starts with nobody ready | high; not executed | Findings.StaleReadinessAsWritten | Corrected.PlayerIsReadyFixed (Findings.FreshReadinessWhenFixed) |
| src/main/java/com/example/game/model/Game.java:87-90,154-158 | removePlayer leaves the leaver in the ready set, which then counts toward the roster size | waiting game of a, b and c, readiness checked against the roster: b readies and leaves, and a's readiness starts the next round although c never readied | a leaver's readiness leaves with the leaver | medium; not executed | Findings.LeaverStaysReadyAsWritten | Corrected.RemovePlayerFixed (Findings.LeaverNotReadyWhenFixed, Corrected.RunFixedKeepsFreshReadiness, Corrected.NewRoundOnlyWhenAllReady) |
| src/main/java/com/example/game/model/Game.java:93-95 | removePlayer runs the fold on an already ENDED game | ENDED game 7 with players 1 and 2, both now in game 8: removing 2 adds player 1's delta a second time | fold only on the transition into ENDED | high; not executed | Findings.RemovalRefoldsEndedGame | Corrected.RemovePlayerFixed (Corrected.RemoveFixedNeverRefolds, Findings.RemovalKeepsStatsWhenFixed) |

=== FILE: aggregation.dfy ===
/** The end-game path: the game ends and each roster player's per-game delta is folded
    into the player's lifetime statistics. */
module Aggregation {
  import opened Basics
  import opened Stats
  import opened GameState

  /** The fold can process `p` without dereferencing null: `p` has a current game
      and the game holds a per-game delta for `p`. */
  predicate CanSettle(w: World, p: PlayerId)
  {
    Lookup(w.dir, p).currentGame.Some? && p in w.game.playerStats
  }

  /** One roster player's record after the fold: the back-reference is cleared when it
      points at game `gid`, and the delta is added to the lifetime counters. */
  function Settle(rec: PlayerRecord, gid: GameId, delta: Stat): PlayerRecord
  {
    PlayerRecord(if rec.currentGame == Some(gid) then None else rec.currentGame,
                 Plus(rec.stats, delta))
  }

  /** What the fold does to the players' records, relative to the world `w` it starts from:
      each roster player's lifetime counts gain the player's delta and the player's
      back-reference is cleared to none when it pointed at this game (a reference to another
      game is kept);
      every player off the roster is untouched. */
  ghost predicate Folded(w: World, w': World)
  {
    && (forall p :: p in w.game.players ==>
          p in w.game.playerStats
          && Lookup(w'.dir, p).stats == Plus(Lookup(w.dir, p).stats, w.game.playerStats[p]))
    && (forall p :: p in w.game.players ==> Lookup(w'.dir, p).currentGame != Some(w.game.id))
    && (forall p :: p in w.game.players && Lookup(w.dir, p).currentGame == Some(w.game.id) ==>
          Lookup(w'.dir, p).currentGame == None)
    && (forall p :: p in w.game.players && Lookup(w.dir, p).currentGame != Some(w.game.id) ==>
          Lookup(w'.dir, p).currentGame == Lookup(w.dir, p).currentGame)
    && (forall p :: p !in w.game.players ==> Lookup(w'.dir, p) == Lookup(w.dir, p))
  }

  /** The private end-game routine. It never looks at the status it starts from, so it
      also runs on a game that has already ended. */
  function EndGameFold(w: World): (r: Result<World>)
    ensures r.Ok? <==> forall p :: p in w.game.players ==> CanSettle(w, p)
    ensures r.Err? ==> r.error == NullDereference
    ensures r.Ok? ==> r.value.game == w.game.(status := Ended)
    ensures r.Ok? ==> forall p :: p in w.game.players ==>
      Lookup(r.value.dir, p).stats == Plus(Lookup(w.dir, p).stats, w.game.playerStats[p])
    ensures r.Ok? ==> forall p :: p in w.game.players ==>
      Lookup(r.value.dir, p).currentGame != Some(w.game.id)
    ensures r.Ok? ==> forall p :: p in w.game.players && Lookup(w.dir, p).currentGame == Some(w.game.id) ==>
      Lookup(r.value.dir, p).currentGame == None
    ensures r.Ok? ==> forall p :: p in w.game.players && Lookup(w.dir, p).currentGame != Some(w.game.id) ==>
      Lookup(r.value.dir, p).currentGame == Lookup(w.dir, p).currentGame
    ensures r.Ok? ==> forall p :: p !in w.game.players ==> Lookup(r.value.dir, p) == Lookup(w.dir, p)
    ensures r.Ok? ==> Folded(w, r.value)
  {
    if forall p :: p in w.game.players ==> CanSettle(w, p) then
      Ok(World(w.game.(status := Ended), SettleAll(w)))
    else
      Err(NullDereference)
  }

  /** The directory after every roster player has been settled. */
  function SettleAll(w: World): Directory
    requires forall p :: p in w.game.players ==> CanSettle(w, p)
  {
    map q | q in w.dir ::
      if q in w.game.players then
        assert CanSettle(w, q);
        Settle(w.dir[q], w.game.id, w.game.playerStats[q])
      else w.dir[q]
  }

  /** The fold as the source writes it: the status is set first, then the roster is
      visited one player at a time, in an order the set does not fix. */
  method EndGameLoop(w: World) returns (r: Result<World>)
    ensures r == EndGameFold(w)
  {
    var g := w.game.(status := Ended);
    var rest := w.game.players;
    var dir := w.dir;
    while rest != {}
      invariant rest <= w.game.players
      invariant dir.Keys == w.dir.Keys
      invariant forall q :: q in w.game.players - rest ==> CanSettle(w, q)
      invariant forall q :: q in dir ==>
        dir[q] == if q in w.game.players - rest
                  then Settle(w.dir[q], w.game.id, w.game.playerStats[q]) else w.dir[q]
      decreases rest
    {
      var p :| p in rest;
      if !CanSettle(w, p) {
        return Err(NullDereference);
      }
      dir := dir[p := Settle(dir[p], w.game.id, w.game.playerStats[p])];
      rest := rest - {p};
    }
    assert w.game.players - rest == w.game.players;
    assert dir == SettleAll(w);
    r := Ok(World(g, dir));
  }
}

=== FILE: basics.dfy ===
/** Identifiers, the optional value and the error-or-value result shared by every module. */
module Basics {

  /** A player is referred to by an opaque identifier, never by a live object. */
  type PlayerId = nat

  /** The persistent identifier of a game; it stands for the game's identity in `equals`. */
  type GameId = nat

  datatype Option<+T> = None | Some(value: T)

  /** The reasons an operation of the game can refuse to act.
      All but the last are the source's InvalidGameActionException, one per message;
      NullDereference stands for the NullPointerException the source raises when it
      dereferences a player's missing current game or a missing per-game stat delta. */
  datatype GameError =
    | CannotJoin           // joining after the game left PLAYERS_JOINING
    | NoSuchPlayer         // the membership check failed
    | AlreadyStarted       // starting a game that is not in PLAYERS_JOINING
    | TooFewPlayers        // starting with fewer than two players
    | NotLeader            // starting or ending by someone other than the leader
    | EmptyAnswer          // submitting the empty answer
    | NotAcceptingAnswers  // submitting or selecting in the wrong phase
    | NotWaitingForReady   // (un)readying outside WAITING_FOR_READY
    | NotStarted           // asking for the current round before any round exists
    | AlreadyEnded         // ending a game that has ended
    | NullDereference      // a null current game or a null stat delta was dereferenced

  /** Either the new value or the error that the operation raised instead. */
  datatype Result<+T> = Ok(value: T) | Err(error: GameError) {

    /** True if the operation refused to act. */
    predicate IsFailure()
    {
      Err?
    }

    /** Carries the error over to a result of another value type. */
    function PropagateFailure<U>(): Result<U>
      requires Err?
    {
      Err(error)
    }

    /** The new value of a successful operation. */
    function Extract(): T
      requires Ok?
    {
      value
    }
  }
}

=== FILE: corrected.dfy ===
/** The operations as they were evidently intended: the membership checks of selection and
    readiness refuse players who are NOT on the roster, a new round starts with nobody
    ready, a leaver's readiness leaves with the leaver, and a removal from an ended game
    does not fold the statistics a second time. Each reuses the step of the as-written
    operation that follows its check. */
module Corrected {
  import opened Basics
  import opened Rounds
  import opened GameState
  import opened Aggregation
  import opened GameOps
  import opened Transitions

  /** Selection that admits exactly the roster players. */
  function SelectAnswerFixed(w: World, p: PlayerId, choice: PlayerAnswer): (r: Result<World>)
    ensures p !in w.game.players ==> r == Err(NoSuchPlayer)
    ensures p in w.game.players ==> r == SelectionStep(w, p, choice)
  {
    if p !in w.game.players then Err(NoSuchPlayer) else SelectionStep(w, p, choice)
  }

  /** Readiness that admits exactly the roster players and clears the ready set when the
      next round starts. */
  function PlayerIsReadyFixed(w: World, p: PlayerId, question: Question, ellen: string): (r: Result<World>)
    ensures p !in w.game.players ==> r == Err(NoSuchPlayer)
    ensures r.Ok? ==> p in w.game.players && ReadyStep(w, p, question, ellen).Ok?
    ensures p in w.game.players ==> (r.Ok? <==> ReadyStep(w, p, question, ellen).Ok?)
    ensures p in w.game.players && r.Err? ==> r == ReadyStep(w, p, question, ellen)
    ensures r.Ok? && r.value.game.status == SubmittingAnswers ==>
      var stepped := ReadyStep(w, p, question, ellen).value;
      r.value == stepped.(game := stepped.game.(readyPlayers := {}))
    ensures r.Ok? && r.value.game.status != SubmittingAnswers ==> r == ReadyStep(w, p, question, ellen)
  {
    if p !in w.game.players then Err(NoSuchPlayer)
    else
      var w' :- ReadyStep(w, p, question, ellen);
      if w'.game.status == SubmittingAnswers then Ok(w'.(game := w'.game.(readyPlayers := {})))
      else Ok(w')
  }

  /** Withdrawal of readiness that admits exactly the roster players. */
  function PlayerIsNotReadyFixed(w: World, p: PlayerId): (r: Result<World>)
    ensures p !in w.game.players ==> r == Err(NoSuchPlayer)
    ensures p in w.game.players ==> r == UnreadyStep(w, p)
  {
    if p !in w.game.players then Err(NoSuchPlayer) else UnreadyStep(w, p)
  }

  /** Removal whose end-game fold runs only on the transition into ENDED, and which takes
      the leaver out of the ready set along with the roster. */
  function RemovePlayerFixed(w: World, p: PlayerId): (r: Result<World>)
    ensures w.game.status != Ended ==> (r.Ok? <==> RemovePlayer(w, p).Ok?)
    ensures w.game.status != Ended && r.Err? ==> r == RemovePlayer(w, p)
    ensures w.game.status != Ended && r.Ok? ==>
      var asWritten := RemovePlayer(w, p).value;
      r.value == asWritten.(game := asWritten.game.(readyPlayers := w.game.readyPlayers - {p}))
    ensures w.game.status == Ended ==> (r.Ok? <==> Detach(w, p).Ok?)
    ensures w.game.status == Ended && r.Err? ==> r == Detach(w, p)
    ensures w.game.status == Ended && r.Ok? ==>
      var detached := Detach(w, p).value;
      r.value == detached.(game := detached.game.(readyPlayers := w.game.readyPlayers - {p}))
    ensures r.Ok? ==> r.value.game.readyPlayers == w.game.readyPlayers - {p}
  {
    var w' :- Detach(w, p);
    var left :- if EndsOnRemoval(w'.game.players, w.game.status) && w.game.status != Ended
                then EndGameFold(w') else Ok(w');
    Ok(left.(game := left.game.(readyPlayers := left.game.readyPlayers - {p})))
  }

  /** One request under the corrected operations; joining, starting, answering and ending
      are as written. */
  function ApplyFixed(w: World, op: Op): Result<World>
  {
    match op
    case Join(p) => AddPlayer(w, p)
    case Leave(p) => RemovePlayerFixed(w, p)
    case Start(p, q, e) => StartGame(w, p, q, e)
    case Submit(p, t) => SubmitAnswer(w, p, t)
    case Select(p, c) => SelectAnswerFixed(w, p, c)
    case Ready(p, q, e) => PlayerIsReadyFixed(w, p, q, e)
    case NotReady(p) => PlayerIsNotReadyFixed(w, p)
    case Finish(p) => EndGame(w, p)
  }

  /** A run of requests under the corrected operations; a refused request leaves the world
      as it was. */
  function RunFixed(w: World, ops: seq<Op>): World
    decreases |ops|
  {
    if ops == [] then w
    else
      var next := match ApplyFixed(w, ops[0]) case Ok(w') => w' case Err(_) => w;
      RunFixed(next, ops[1..])
  }

  /** The readiness the corrected operations keep: only roster players are ready, and
      outside the waiting phase (ENDED aside) nobody is, so a player counts as ready only
      in the waiting phase in which the player declared it. */
  ghost predicate FreshReadiness(g: Game)
  {
    && g.readyPlayers <= g.players
    && (g.status != WaitingForReady && g.status != Ended ==> g.readyPlayers == {})
  }

  /** A subset as large as its superset is the whole superset. */
  lemma {:induction false} SubsetOfSameSize<T>(a: set<T>, b: set<T>)
    requires a <= b && |a| == |b|
    ensures a == b
  {
    assert b == a + (b - a);
    assert a !! (b - a);
    assert |b - a| == 0;
    forall y | y in b
      ensures y in a
    {
      assert y !in b - a;
    }
  }

  /** A roster player's selection in the selecting phase is accepted whenever the game
      could end cleanly; the game leaves the selecting phase exactly when every roster
      player has selected. */
  lemma MembersCanSelect(w: World, p: PlayerId, choice: PlayerAnswer)
    requires p in w.game.players && w.game.status == SelectingAnswers && |w.game.rounds| > 0
    requires forall q :: q in w.game.players ==> CanSettle(w, q)
    ensures SelectAnswerFixed(w, p, choice).Ok?
    ensures var g := SelectAnswerFixed(w, p, choice).value.game;
      g.status != SelectingAnswers <==> |Last(g.rounds).selections| == |w.game.players|
  {
  }

  /** Under the fixed readiness path the ready set stays within the roster, and a new round
      starts only when every roster player is ready, and then with nobody ready. */
  lemma ReadyFixedKeepsReadyWithinRoster(w: World, p: PlayerId, question: Question, ellen: string)
    requires w.game.readyPlayers <= w.game.players
    ensures PlayerIsReadyFixed(w, p, question, ellen).Ok? ==>
      PlayerIsReadyFixed(w, p, question, ellen).value.game.readyPlayers
        <= PlayerIsReadyFixed(w, p, question, ellen).value.game.players
    ensures PlayerIsReadyFixed(w, p, question, ellen).Ok?
            && PlayerIsReadyFixed(w, p, question, ellen).value.game.status == SubmittingAnswers ==>
      w.game.readyPlayers + {p} == w.game.players
      && PlayerIsReadyFixed(w, p, question, ellen).value.game.readyPlayers == {}
  {
    var r := PlayerIsReadyFixed(w, p, question, ellen);
    if r.Ok? && r.value.game.status == SubmittingAnswers {
      SubsetOfSameSize(w.game.readyPlayers + {p}, w.game.players);
    }
  }

  lemma NotReadyFixedKeepsReadyWithinRoster(w: World, p: PlayerId)
    requires w.game.readyPlayers <= w.game.players
    ensures PlayerIsNotReadyFixed(w, p).Ok? ==>
      PlayerIsNotReadyFixed(w, p).value.game.readyPlayers <= PlayerIsNotReadyFixed(w, p).value.game.players
      && PlayerIsNotReadyFixed(w, p).value.game.readyPlayers == w.game.readyPlayers - {p}
  {
  }

  /** Every successful corrected step keeps FreshReadiness. */
  lemma StepFixedKeepsFreshReadiness(w: World, op: Op)
    requires FreshReadiness(w.game)
    ensures ApplyFixed(w, op).Ok? ==> FreshReadiness(ApplyFixed(w, op).value.game)
  {
  }

  /** Every world reached by corrected requests from one with FreshReadiness keeps it; a
      freshly created game has it. */
  lemma {:induction false} RunFixedKeepsFreshReadiness(w: World, ops: seq<Op>)
    requires FreshReadiness(w.game)
    ensures FreshReadiness(RunFixed(w, ops).game)
    decreases |ops|
  {
    if ops != [] {
      StepFixedKeepsFreshReadiness(w, ops[0]);
      var next := match ApplyFixed(w, ops[0]) case Ok(w') => w' case Err(_) => w;
      RunFixedKeepsFreshReadiness(next, ops[1..]);
    }
  }

  lemma CreateHasFreshReadiness(id: GameId, mode: string, numRounds: int, hasEllen: bool,
                                status: GameStatus, leader: PlayerId, dir: Directory)
    ensures FreshReadiness(Create(id, mode, numRounds, hasEllen, status, leader, dir).game)
  {
  }

  /** Under the corrected operations a waiting game moves on to a new round only through a
      readiness that completes the roster: every other roster player declared readiness in
      this waiting phase. */
  lemma NewRoundOnlyWhenAllReady(w: World, op: Op)
    requires FreshReadiness(w.game) && w.game.status == WaitingForReady
    ensures ApplyFixed(w, op).Ok? && ApplyFixed(w, op).value.game.status == SubmittingAnswers ==>
      op.Ready? && w.game.readyPlayers + {op.p} == w.game.players
  {
    if op.Ready? {
      ReadyFixedKeepsReadyWithinRoster(w, op.p, op.question, op.ellen);
    }
  }

  /** Removing a player from an ended game leaves every lifetime statistic as it was. */
  lemma RemoveFixedNeverRefolds(w: World, p: PlayerId)
    requires w.game.status == Ended
    ensures RemovePlayerFixed(w, p).Ok? ==>
      forall q :: Lookup(RemovePlayerFixed(w, p).value.dir, q).stats == Lookup(w.dir, q).stats
    ensures RemovePlayerFixed(w, p).Ok? ==> RemovePlayerFixed(w, p).value.game.status == Ended
  {
  }
}

=== FILE: findings.dfy ===
/** Concrete games that show where the source departs from its evident intent, and the
    same games under the corrected operations. Player 1 is the leader, player 2 the other
    roster player; players 3 and 4 are on no roster of this game. */
module Findings {
  import opened Basics
  import opened Stats
  import opened Rounds
  import opened GameState
  import opened Aggregation
  import opened GameOps
  import opened Corrected

  const Prompt := Question("Octopuses have three hearts", "true")

  /** Creation by player 1 with `numRounds` rounds, player 2 joins, the per-game deltas are
      set, the leader starts, and both roster players answer. */
  function BothAnswered(numRounds: int, d1: Stat, d2: Stat): Result<World>
  {
    var w0 := Create(7, "IS THIS A FACT", numRounds, false, PlayersJoining, 1, map[]);
    var w1 := AddPlayer(w0, 2).value;
    var w2 :- StartGame(w1.(game := w1.game.(playerStats := map[1 := d1, 2 := d2])), 1, Prompt, "");
    AnswerBoth(w2)
  }

  lemma BothAnsweredSelecting(numRounds: int, d1: Stat, d2: Stat)
    ensures BothAnswered(numRounds, d1, d2).Ok?
    ensures var g := BothAnswered(numRounds, d1, d2).value.game;
      && g.status == SelectingAnswers && g.players == {1, 2} && |g.rounds| == 1
      && g.numRounds == numRounds && g.playerStats == map[1 := d1, 2 := d2]
    ensures var w := BothAnswered(numRounds, d1, d2).value;
      Lookup(w.dir, 1) == PlayerRecord(Some(7), Zero) && Lookup(w.dir, 2) == PlayerRecord(Some(7), Zero)
  {
    var w0 := Create(7, "IS THIS A FACT", numRounds, false, PlayersJoining, 1, map[]);
    var w1 := AddPlayer(w0, 2).value;
    assert w1.game.players == {1, 2};
    assert |w1.game.players| == 2;
    var w2 := StartGame(w1.(game := w1.game.(playerStats := map[1 := d1, 2 := d2])), 1, Prompt, "").value;
    var w3 := SubmitAnswer(w2, 1, "true").value;
    assert |Last(w3.game.rounds).answers| == 1;
    assert w3.game.status == SubmittingAnswers;
    var w4 := SubmitAnswer(w3, 2, "false").value;
    assert |Last(w4.game.rounds).answers| == 2;
  }

  /** As written, neither roster player can select, while a player outside the roster can:
      the one-round game of two players stalls in SELECTING_ANSWERS. */
  lemma RosterCannotSelectAsWritten(d1: Stat, d2: Stat)
    ensures BothAnswered(1, d1, d2).Ok?
    ensures SelectAnswer(BothAnswered(1, d1, d2).value, 1, PlayerAnswer(2, "false")) == Err(NoSuchPlayer)
    ensures SelectAnswer(BothAnswered(1, d1, d2).value, 2, PlayerAnswer(1, "true")) == Err(NoSuchPlayer)
    ensures SelectAnswer(BothAnswered(1, d1, d2).value, 3, PlayerAnswer(1, "true")).Ok?
  {
    BothAnsweredSelecting(1, d1, d2);
  }

  /** Under the corrected selection the same game completes: both roster players select,
      the game ends, each lifetime statistic is the zero start plus the game's delta, both
      back-references are cleared, and a later explicit end is refused, so the fold is
      applied exactly once. */
  lemma OneRoundGameCompletesWhenFixed(d1: Stat, d2: Stat)
    ensures BothAnswered(1, d1, d2).Ok?
    ensures var s1 := SelectAnswerFixed(BothAnswered(1, d1, d2).value, 1, PlayerAnswer(2, "false"));
      && s1.Ok? && s1.value.game.status == SelectingAnswers
      && var s2 := SelectAnswerFixed(s1.value, 2, PlayerAnswer(1, "true"));
      && s2.Ok? && s2.value.game.status == Ended
      && Lookup(s2.value.dir, 1) == PlayerRecord(None, Plus(Zero, d1))
      && Lookup(s2.value.dir, 2) == PlayerRecord(None, Plus(Zero, d2))
      && EndGame(s2.value, 1) == Err(AlreadyEnded)
  {
    BothAnsweredSelecting(1, d1, d2);
    var w := BothAnswered(1, d1, d2).value;
    var s1 := SelectAnswerFixed(w, 1, PlayerAnswer(2, "false"));
    assert |Last(s1.value.game.rounds).selections| == 1;
    var s2 := SelectAnswerFixed(s1.value, 2, PlayerAnswer(1, "true"));
    assert |Last(s2.value.game.rounds).selections| == 2;
  }

  /** Both roster players of a selecting game answer a new round, then both
      selections and both readiness declarations are made by the given players, with the
      as-written operations (`fixed` false) or the corrected ones (`fixed` true). */
  function PlayOn(w: World, fixed: bool, s1: PlayerId, s2: PlayerId): Result<World>
  {
    var w1 :- Choose(fixed, w, s1);
    var w2 :- Choose(fixed, w1, s2);
    var w3 :- Readies(fixed, w2, s1);
    Readies(fixed, w3, s2)
  }

  function Choose(fixed: bool, w: World, p: PlayerId): Result<World>
  {
    if fixed then SelectAnswerFixed(w, p, PlayerAnswer(1, "true"))
    else SelectAnswer(w, p, PlayerAnswer(1, "true"))
  }

  function Readies(fixed: bool, w: World, p: PlayerId): Result<World>
  {
    if fixed then PlayerIsReadyFixed(w, p, Prompt, "") else PlayerIsReady(w, p, Prompt, "")
  }

  function AnswerBoth(w: World): Result<World>
  {
    var w1 :- SubmitAnswer(w, 1, "true");
    SubmitAnswer(w1, 2, "false")
  }

  /** As written, in a three-round game whose selections and readiness come from players 3
      and 4 (the only ones the inverted checks admit), round 2 starts with both still
      ready; after round 2's answers and selections, a single repeated readiness of
      player 3 starts round 3 although nobody declared readiness for it afresh. */
  lemma StaleReadinessAsWritten(d1: Stat, d2: Stat)
    ensures BothAnswered(3, d1, d2).Ok?
    ensures var r2 := PlayOn(BothAnswered(3, d1, d2).value, false, 3, 4);
      && r2.Ok? && r2.value.game.status == SubmittingAnswers && |r2.value.game.rounds| == 2
      && r2.value.game.readyPlayers == {3, 4}
      && AnswerBoth(r2.value).Ok?
      && var w := AnswerBoth(r2.value).value;
      && Choose(false, w, 3).Ok? && Choose(false, Choose(false, w, 3).value, 4).Ok?
      && var waiting := Choose(false, Choose(false, w, 3).value, 4).value;
      && waiting.game.status == WaitingForReady && waiting.game.readyPlayers == {3, 4}
      && Readies(false, waiting, 3).Ok?
      && Readies(false, waiting, 3).value.game.status == SubmittingAnswers
      && |Readies(false, waiting, 3).value.game.rounds| == 3
  {
    RoundTwoStartsStillReady(d1, d2);
    RoundThreeOnRepeatedReadiness(PlayOn(BothAnswered(3, d1, d2).value, false, 3, 4).value);
  }

  lemma RoundTwoStartsStillReady(d1: Stat, d2: Stat)
    ensures BothAnswered(3, d1, d2).Ok?
    ensures var r2 := PlayOn(BothAnswered(3, d1, d2).value, false, 3, 4);
      && r2.Ok? && r2.value.game.status == SubmittingAnswers && |r2.value.game.rounds| == 2
      && r2.value.game.readyPlayers == {3, 4} && r2.value.game.players == {1, 2}
      && r2.value.game.numRounds == 3
      && Last(r2.value.game.rounds).answers == map[] && Last(r2.value.game.rounds).selections == map[]
  {
    BothAnsweredSelecting(3, d1, d2);
    var w0 := BothAnswered(3, d1, d2).value;
    var a := Choose(false, w0, 3).value;
    assert |Last(a.game.rounds).selections| == 1;
    var b := Choose(false, a, 4).value;
    assert |Last(b.game.rounds).selections| == 2;
    assert b.game.status == WaitingForReady;
    var c := Readies(false, b, 3).value;
    assert c.game.readyPlayers == {3};
    assert c.game.status == WaitingForReady;
    assert {3, 4} == {3} + {4};
  }

  lemma RoundThreeOnRepeatedReadiness(r2: World)
    requires r2.game.status == SubmittingAnswers && |r2.game.rounds| == 2
    requires r2.game.readyPlayers == {3, 4} && r2.game.players == {1, 2} && r2.game.numRounds == 3
    requires Last(r2.game.rounds).answers == map[] && Last(r2.game.rounds).selections == map[]
    ensures AnswerBoth(r2).Ok?
    ensures var w := AnswerBoth(r2).value;
      && Choose(false, w, 3).Ok? && Choose(false, Choose(false, w, 3).value, 4).Ok?
      && var waiting := Choose(false, Choose(false, w, 3).value, 4).value;
      && waiting.game.status == WaitingForReady && waiting.game.readyPlayers == {3, 4}
      && Readies(false, waiting, 3).Ok?
      && Readies(false, waiting, 3).value.game.status == SubmittingAnswers
      && |Readies(false, waiting, 3).value.game.rounds| == 3
  {
    var w1 := SubmitAnswer(r2, 1, "true").value;
    assert |Last(w1.game.rounds).answers| == 1;
    var w := SubmitAnswer(w1, 2, "false").value;
    assert |Last(w.game.rounds).answers| == 2;
    var e := Choose(false, w, 3).value;
    assert |Last(e.game.rounds).selections| == 1;
    var waiting := Choose(false, e, 4).value;
    assert |Last(waiting.game.rounds).selections| == 2;
    assert {3, 4} + {3} == {3, 4};
  }

  /** Under the corrected operations the same three-round game, played by its roster
      players 1 and 2, starts round 2 with nobody ready, and a single readiness in round
      2's waiting phase does not start round 3. */
  lemma FreshReadinessWhenFixed(d1: Stat, d2: Stat)
    ensures BothAnswered(3, d1, d2).Ok?
    ensures var r2 := PlayOn(BothAnswered(3, d1, d2).value, true, 1, 2);
      && r2.Ok? && r2.value.game.status == SubmittingAnswers && |r2.value.game.rounds| == 2
      && r2.value.game.readyPlayers == {}
      && AnswerBoth(r2.value).Ok?
      && var w := AnswerBoth(r2.value).value;
      && Choose(true, w, 1).Ok? && Choose(true, Choose(true, w, 1).value, 2).Ok?
      && var waiting := Choose(true, Choose(true, w, 1).value, 2).value;
      && waiting.game.status == WaitingForReady && waiting.game.readyPlayers == {}
      && Readies(true, waiting, 1).Ok?
      && Readies(true, waiting, 1).value.game.status == WaitingForReady
      && |Readies(true, waiting, 1).value.game.rounds| == 2
  {
    RoundTwoStartsNobodyReady(d1, d2);
    RoundTwoWaitsForEveryone(PlayOn(BothAnswered(3, d1, d2).value, true, 1, 2).value);
  }

  lemma RoundTwoStartsNobodyReady(d1: Stat, d2: Stat)
    ensures BothAnswered(3, d1, d2).Ok?
    ensures var r2 := PlayOn(BothAnswered(3, d1, d2).value, true, 1, 2);
      && r2.Ok? && r2.value.game.status == SubmittingAnswers && |r2.value.game.rounds| == 2
      && r2.value.game.readyPlayers == {} && r2.value.game.players == {1, 2}
      && r2.value.game.numRounds == 3
      && Last(r2.value.game.rounds).answers == map[] && Last(r2.value.game.rounds).selections == map[]
  {
    BothAnsweredSelecting(3, d1, d2);
    var w0 := BothAnswered(3, d1, d2).value;
    var a := Choose(true, w0, 1).value;
    assert |Last(a.game.rounds).selections| == 1;
    var b := Choose(true, a, 2).value;
    assert |Last(b.game.rounds).selections| == 2;
    assert b.game.status == WaitingForReady;
    var c := Readies(true, b, 1).value;
    assert c.game.readyPlayers == {1};
    assert c.game.status == WaitingForReady;
    assert {1, 2} == {1} + {2};
    var r2 := Readies(true, c, 2).value;
    assert r2.game.status == SubmittingAnswers;
  }

  lemma RoundTwoWaitsForEveryone(r2: World)
    requires r2.game.status == SubmittingAnswers && |r2.game.rounds| == 2
    requires r2.game.readyPlayers == {} && r2.game.players == {1, 2} && r2.game.numRounds == 3
    requires Last(r2.game.rounds).answers == map[] && Last(r2.game.rounds).selections == map[]
    ensures AnswerBoth(r2).Ok?
    ensures var w := AnswerBoth(r2).value;
      && Choose(true, w, 1).Ok? && Choose(true, Choose(true, w, 1).value, 2).Ok?
      && var waiting := Choose(true, Choose(true, w, 1).value, 2).value;
      && waiting.game.status == WaitingForReady && waiting.game.readyPlayers == {}
      && Readies(true, waiting, 1).Ok?
      && Readies(true, waiting, 1).value.game.status == WaitingForReady
      && |Readies(true, waiting, 1).value.game.rounds| == 2
  {
    var w1 := SubmitAnswer(r2, 1, "true").value;
    assert |Last(w1.game.rounds).answers| == 1;
    var w := SubmitAnswer(w1, 2, "false").value;
    assert |Last(w.game.rounds).answers| == 2;
    var e := Choose(true, w, 1).value;
    assert |Last(e.game.rounds).selections| == 1;
    var waiting := Choose(true, e, 2).value;
    assert |Last(waiting.game.rounds).selections| == 2;
    assert |{} + {1}| == 1;
  }

  /** As written, removing one of the two players left on an ENDED game folds the other
      player's delta into the lifetime statistics a second time. */
  lemma RemovalRefoldsEndedGame(w: World, p: PlayerId, q: PlayerId)
    requires w.game.status == Ended && p != q && w.game.players == {p, q}
    requires Lookup(w.dir, p).currentGame.Some? && CanSettle(w, q)
    ensures RemovePlayer(w, p).Ok?
    ensures Lookup(RemovePlayer(w, p).value.dir, q).stats
            == Plus(Lookup(w.dir, q).stats, w.game.playerStats[q])
  {
  }

  /** The same removal under the corrected operation leaves the statistics alone. */
  lemma RemovalKeepsStatsWhenFixed(w: World, p: PlayerId, q: PlayerId)
    requires w.game.status == Ended && p != q && w.game.players == {p, q}
    requires Lookup(w.dir, p).currentGame.Some? && CanSettle(w, q)
    ensures RemovePlayerFixed(w, p).Ok?
    ensures Lookup(RemovePlayerFixed(w, p).value.dir, q).stats == Lookup(w.dir, q).stats
  {
  }

  /** As written, a player who declared readiness and then leaves stays in the ready set:
      in a waiting game of three, once b is ready and leaves, a's readiness alone starts the
      next round although c never declared readiness (the readiness checks are the
      corrected ones here, as the as-written ones refuse every roster player). */
  lemma LeaverStaysReadyAsWritten(w: World, a: PlayerId, b: PlayerId, c: PlayerId,
                                  question: Question, ellen: string)
    requires a != b && b != c && a != c && w.game.players == {a, b, c}
    requires w.game.status == WaitingForReady && w.game.readyPlayers == {}
    requires |w.game.rounds| < w.game.numRounds && Lookup(w.dir, b).currentGame.Some?
    ensures PlayerIsReadyFixed(w, b, question, ellen).Ok?
    ensures var left := RemovePlayer(PlayerIsReadyFixed(w, b, question, ellen).value, b);
      && left.Ok? && left.value.game.players == {a, c} && left.value.game.readyPlayers == {b}
      && PlayerIsReadyFixed(left.value, a, question, ellen).Ok?
      && PlayerIsReadyFixed(left.value, a, question, ellen).value.game.status == SubmittingAnswers
  {
    var ready := PlayerIsReadyFixed(w, b, question, ellen).value;
    assert |{b}| == 1;
    assert ready.game.status == WaitingForReady;
    var left := RemovePlayer(ready, b).value;
    assert left.game.players == {a, c};
    assert |{a, c}| == 2;
    assert {b} + {a} == {a, b};
  }

  /** The same play under the corrected removal: the leaver's readiness goes with the
      leaver, and a's readiness leaves the game waiting for c. */
  lemma LeaverNotReadyWhenFixed(w: World, a: PlayerId, b: PlayerId, c: PlayerId,
                                question: Question, ellen: string)
    requires a != b && b != c && a != c && w.game.players == {a, b, c}
    requires w.game.status == WaitingForReady && w.game.readyPlayers == {}
    requires |w.game.rounds| < w.game.numRounds && Lookup(w.dir, b).currentGame.Some?
    ensures PlayerIsReadyFixed(w, b, question, ellen).Ok?
    ensures var left := RemovePlayerFixed(PlayerIsReadyFixed(w, b, question, ellen).value, b);
      && left.Ok? && left.value.game.players == {a, c} && left.value.game.readyPlayers == {}
      && PlayerIsReadyFixed(left.value, a, question, ellen).Ok?
      && PlayerIsReadyFixed(left.value, a, question, ellen).value.game.status == WaitingForReady
  {
    var ready := PlayerIsReadyFixed(w, b, question, ellen).value;
    assert |{b}| == 1;
    assert ready.game.status == WaitingForReady;
    var left := RemovePlayerFixed(ready, b).value;
    assert left.game.players == {a, c};
    assert |{a, c}| == 2;
    assert {} + {a} == {a};
  }
}

=== FILE: game.dfy ===
/** The operations of the game aggregate, each a guarded transition that returns the
    error the source throws or the new game together with the players' records.
    The membership checks of selectAnswer, playerIsReady and playerIsNotReady are modelled
    as the source writes them: they refuse players who ARE on the roster. */
module GameOps {
  import opened Basics
  import opened Stats
  import opened Rounds
  import opened GameState
  import opened Aggregation

  /** A game is created with its leader as the first player; when the requested status is
      not PLAYERS_JOINING the leader's join is refused, the refusal is swallowed, and the
      game starts with an empty roster. */
  function Create(id: GameId, mode: string, numRounds: int, hasEllen: bool,
                  status: GameStatus, leader: PlayerId, dir: Directory): (r: World)
    ensures r.game.id == id && r.game.mode == mode && r.game.numRounds == numRounds
    ensures r.game.hasEllen == hasEllen && r.game.status == status && r.game.leader == leader
    ensures r.game.rounds == [] && r.game.readyPlayers == {} && r.game.playerStats == map[]
    ensures leader in r.game.players <==> status == PlayersJoining
    ensures status == PlayersJoining ==>
      r.game.players == {leader} && Lookup(r.dir, leader).currentGame == Some(id)
    ensures status != PlayersJoining ==> r.game.players == {} && r.dir == dir
    ensures Lookup(r.dir, leader).stats == Lookup(dir, leader).stats
    ensures forall q :: q != leader ==> Lookup(r.dir, q) == Lookup(dir, q)
  {
    var g := Game(id, mode, {}, [], numRounds, hasEllen, leader, map[], status, {});
    match AddPlayer(World(g, dir), leader)
    case Ok(w) => w
    case Err(_) => World(g, dir)
  }

  /** Joining is possible only while players are joining; the joiner's current game
      becomes this game. */
  function AddPlayer(w: World, p: PlayerId): (r: Result<World>)
    ensures r.Err? <==> w.game.status != PlayersJoining
    ensures r.Err? ==> r.error == CannotJoin
    ensures r.Ok? ==> r.value.game == w.game.(players := w.game.players + {p})
    ensures r.Ok? ==> p in r.value.game.players
    ensures r.Ok? ==> Lookup(r.value.dir, p).currentGame == Some(w.game.id)
    ensures r.Ok? ==> Lookup(r.value.dir, p).stats == Lookup(w.dir, p).stats
    ensures r.Ok? ==> forall q :: q != p ==> Lookup(r.value.dir, q) == Lookup(w.dir, q)
  {
    if w.game.status != PlayersJoining then Err(CannotJoin)
    else Ok(World(w.game.(players := w.game.players + {p}), SetCurrentGame(w.dir, p, Some(w.game.id))))
  }

  /** Whether a removal that leaves `remaining` on the roster ends a game in `status`:
      nobody is left, or a single player is left after the game has started. */
  predicate EndsOnRemoval(remaining: set<PlayerId>, status: GameStatus)
  {
    |remaining| == 0 || (|remaining| == 1 && status != PlayersJoining)
  }

  /** The first half of removal: a roster player leaves the roster, and the player's
      back-reference is cleared when it points here (a null one is dereferenced). */
  function Detach(w: World, p: PlayerId): (r: Result<World>)
    ensures p !in w.game.players ==> r == Err(NoSuchPlayer)
    ensures p in w.game.players && Lookup(w.dir, p).currentGame == None ==> r == Err(NullDereference)
    ensures r.Ok? <==> p in w.game.players && Lookup(w.dir, p).currentGame != None
    ensures r.Ok? ==> r.value.game == w.game.(players := w.game.players - {p})
    ensures r.Ok? ==> Lookup(r.value.dir, p).currentGame != Some(w.game.id)
    ensures r.Ok? && Lookup(w.dir, p).currentGame == Some(w.game.id) ==> Lookup(r.value.dir, p).currentGame == None
    ensures r.Ok? && Lookup(w.dir, p).currentGame != Some(w.game.id) ==>
      Lookup(r.value.dir, p).currentGame == Lookup(w.dir, p).currentGame
    ensures r.Ok? ==> Lookup(r.value.dir, p).stats == Lookup(w.dir, p).stats
    ensures r.Ok? ==> forall q :: q != p ==> Lookup(r.value.dir, q) == Lookup(w.dir, q)
    ensures r.Ok? ==> forall q :: q in r.value.game.players ==> (CanSettle(r.value, q) <==> CanSettle(w, q))
  {
    if p !in w.game.players then Err(NoSuchPlayer)
    else
      var rec := Lookup(w.dir, p);
      if rec.currentGame == None then Err(NullDereference)
      else
        var dir := if rec.currentGame == Some(w.game.id) then SetCurrentGame(w.dir, p, None) else w.dir;
        Ok(World(w.game.(players := w.game.players - {p}), dir))
  }

  /** Removes a roster player (see Detach). When the removal leaves the game without
      players, or with one player after the start, the end-game fold runs, whatever the
      status was: an ended game is folded a second time. */
  function RemovePlayer(w: World, p: PlayerId): (r: Result<World>)
    ensures p !in w.game.players ==> r == Err(NoSuchPlayer)
    ensures p in w.game.players && Lookup(w.dir, p).currentGame == None ==> r == Err(NullDereference)
    ensures r.Ok? ==> r.value.game == w.game.(players := w.game.players - {p}, status := r.value.game.status)
    ensures r.Ok? ==> p !in r.value.game.players
    ensures r.Ok? ==>
      (r.value.game.status == Ended <==>
         w.game.status == Ended || EndsOnRemoval(w.game.players - {p}, w.game.status))
    ensures r.Ok? ==> !EndsOnRemoval(w.game.players - {p}, w.game.status) ==>
      r.value.game.status == w.game.status
    ensures r.Ok? ==> Lookup(r.value.dir, p).currentGame != Some(w.game.id)
    ensures r.Ok? && Lookup(w.dir, p).currentGame == Some(w.game.id) ==> Lookup(r.value.dir, p).currentGame == None
    ensures r.Ok? && Lookup(w.dir, p).currentGame != Some(w.game.id) ==>
      Lookup(r.value.dir, p).currentGame == Lookup(w.dir, p).currentGame
    ensures r.Ok? ==> Lookup(r.value.dir, p).stats == Lookup(w.dir, p).stats
    ensures r.Ok? && !EndsOnRemoval(w.game.players - {p}, w.game.status) ==>
      forall q :: q != p ==> Lookup(r.value.dir, q) == Lookup(w.dir, q)
    ensures p in w.game.players && Lookup(w.dir, p).currentGame != None
            && EndsOnRemoval(w.game.players - {p}, w.game.status) ==>
      (r.Ok? <==> forall q :: q in w.game.players - {p} ==> CanSettle(w, q))
    ensures r.Ok? && EndsOnRemoval(w.game.players - {p}, w.game.status) ==>
      forall q :: q in w.game.players - {p} ==>
        Lookup(r.value.dir, q).stats == Plus(Lookup(w.dir, q).stats, w.game.playerStats[q])
    ensures (p in w.game.players && Lookup(w.dir, p).currentGame != None
             && !EndsOnRemoval(w.game.players - {p}, w.game.status)) ==> r == Detach(w, p)
    ensures Detach(w, p).Ok? && EndsOnRemoval(w.game.players - {p}, w.game.status) ==>
      r == EndGameFold(Detach(w, p).value)
    ensures r.Ok? && EndsOnRemoval(w.game.players - {p}, w.game.status) ==>
      Folded(Detach(w, p).value, r.value)
    ensures r.Ok? && EndsOnRemoval(w.game.players - {p}, w.game.status) ==>
      forall q :: q !in w.game.players ==> Lookup(r.value.dir, q) == Lookup(w.dir, q)
    ensures r.Ok? && EndsOnRemoval(w.game.players - {p}, w.game.status) ==>
      forall q :: q in w.game.players - {p} && Lookup(w.dir, q).currentGame != Some(w.game.id) ==>
        Lookup(r.value.dir, q).currentGame == Lookup(w.dir, q).currentGame
  {
    var w' :- Detach(w, p);
    if EndsOnRemoval(w'.game.players, w.game.status) then EndGameFold(w') else Ok(w')
  }

  /** Begins the next round: the question and, when the game has Ellen answers, the
      Ellen answer come from outside. The ready set is left as it was. */
  function StartNewRound(g: Game, question: Question, ellen: string): (r: Game)
    ensures r.status == SubmittingAnswers
    ensures |r.rounds| == |g.rounds| + 1 && r.rounds[..|g.rounds|] == g.rounds
    ensures Last(r.rounds).number == |g.rounds| + 1
    ensures Last(r.rounds).question == question
    ensures Last(r.rounds).answers == map[] && Last(r.rounds).selections == map[]
    ensures Last(r.rounds).ellenAnswer.Some? <==> g.hasEllen
    ensures g.hasEllen ==> Last(r.rounds).ellenAnswer == Some(ellen)
    ensures r.readyPlayers == g.readyPlayers
    ensures r == g.(status := SubmittingAnswers, rounds := r.rounds)
  {
    var round := NewRound(|g.rounds| + 1, question, if g.hasEllen then Some(ellen) else None);
    g.(status := SubmittingAnswers, rounds := g.rounds + [round])
  }

  /** Only the leader starts a joining game of at least two players. */
  function StartGame(w: World, requester: PlayerId, question: Question, ellen: string): (r: Result<World>)
    ensures w.game.status != PlayersJoining ==> r == Err(AlreadyStarted)
    ensures w.game.status == PlayersJoining && |w.game.players| < 2 ==> r == Err(TooFewPlayers)
    ensures w.game.status == PlayersJoining && |w.game.players| >= 2 && requester != w.game.leader ==>
      r == Err(NotLeader)
    ensures r.Ok? <==>
      w.game.status == PlayersJoining && |w.game.players| >= 2 && requester == w.game.leader
    ensures r.Ok? ==> r.value == World(StartNewRound(w.game, question, ellen), w.dir)
  {
    if w.game.status != PlayersJoining then Err(AlreadyStarted)
    else if |w.game.players| < 2 then Err(TooFewPlayers)
    else if requester != w.game.leader then Err(NotLeader)
    else Ok(World(StartNewRound(w.game, question, ellen), w.dir))
  }

  /** The current round is the last one; there is none before the game has started. */
  function CurrentRound(g: Game): (r: Result<Round>)
    ensures r.Err? <==> |g.rounds| == 0
    ensures r.Err? ==> r.error == NotStarted
    ensures r.Ok? ==> r.value == g.rounds[|g.rounds| - 1]
  {
    if |g.rounds| == 0 then Err(NotStarted) else Ok(Last(g.rounds))
  }

  /** A roster player answers the current round; when as many players have answered as
      the roster holds, the game moves on to selecting answers. */
  function SubmitAnswer(w: World, p: PlayerId, text: string): (r: Result<World>)
    ensures |text| == 0 ==> r == Err(EmptyAnswer)
    ensures |text| > 0 && p !in w.game.players ==> r == Err(NoSuchPlayer)
    ensures |text| > 0 && p in w.game.players && w.game.status != SubmittingAnswers ==>
      r == Err(NotAcceptingAnswers)
    ensures |text| > 0 && p in w.game.players && w.game.status == SubmittingAnswers && w.game.rounds == [] ==>
      r == Err(NotStarted)
    ensures r.Ok? <==>
      |text| > 0 && p in w.game.players && w.game.status == SubmittingAnswers && |w.game.rounds| > 0
    ensures r.Ok? ==> r.value.dir == w.dir
    ensures r.Ok? ==>
      var g := r.value.game;
      && g == w.game.(rounds := g.rounds, status := g.status)
      && |g.rounds| == |w.game.rounds|
      && (forall i :: 0 <= i < |g.rounds| - 1 ==> g.rounds[i] == w.game.rounds[i])
      && Last(g.rounds) == RecordAnswer(Last(w.game.rounds), p, text)
      && (g.status == SelectingAnswers <==> |Last(g.rounds).answers| == |w.game.players|)
      && (g.status != SelectingAnswers ==> g.status == SubmittingAnswers)
  {
    if |text| == 0 then Err(EmptyAnswer)
    else if p !in w.game.players then Err(NoSuchPlayer)
    else if w.game.status != SubmittingAnswers then Err(NotAcceptingAnswers)
    else if |w.game.rounds| == 0 then Err(NotStarted)
    else
      var round := RecordAnswer(Last(w.game.rounds), p, text);
      var g := w.game.(rounds := UpdateLast(w.game.rounds, round));
      if AllAnswersSubmitted(round, |g.players|) then Ok(World(g.(status := SelectingAnswers), w.dir))
      else Ok(World(g, w.dir))
  }

  /** A player selects an answer of the current round. As written, the membership check
      is inverted: a roster player is refused and anybody else goes on to SelectionStep. */
  function SelectAnswer(w: World, p: PlayerId, choice: PlayerAnswer): (r: Result<World>)
    ensures p in w.game.players ==> r == Err(NoSuchPlayer)
    ensures p !in w.game.players ==> r == SelectionStep(w, p, choice)
  {
    if p in w.game.players then Err(NoSuchPlayer) else SelectionStep(w, p, choice)
  }

  /** Selection once the membership check has passed. The selection is recorded on the
      current round; when as many selections are in as the roster holds, the game waits
      for readiness if rounds remain, and otherwise ends. */
  function SelectionStep(w: World, p: PlayerId, choice: PlayerAnswer): (r: Result<World>)
    ensures w.game.status != SelectingAnswers ==> r == Err(NotAcceptingAnswers)
    ensures w.game.status == SelectingAnswers && w.game.rounds == [] ==> r == Err(NotStarted)
    ensures r.Ok? ==>
      && w.game.status == SelectingAnswers && |w.game.rounds| > 0
      && r.value.game == w.game.(rounds := r.value.game.rounds, status := r.value.game.status)
      && r.value.game.rounds == UpdateLast(w.game.rounds, RecordSelection(Last(w.game.rounds), p, choice))
    ensures r.Ok? ==>
      var complete := |Last(r.value.game.rounds).selections| == |w.game.players|;
      && (!complete ==> r.value.game.status == SelectingAnswers && r.value.dir == w.dir)
      && (complete && |w.game.rounds| < w.game.numRounds ==>
            r.value.game.status == WaitingForReady && r.value.dir == w.dir)
      && (complete && |w.game.rounds| >= w.game.numRounds ==> r.value.game.status == Ended)
    ensures w.game.status == SelectingAnswers && |w.game.rounds| > 0 ==>
      var selected := RecordSelection(Last(w.game.rounds), p, choice);
      var complete := |selected.selections| == |w.game.players|;
      var recorded := World(w.game.(rounds := UpdateLast(w.game.rounds, selected)), w.dir);
      && (!complete || |w.game.rounds| < w.game.numRounds ==> r.Ok?)
      && (complete && |w.game.rounds| >= w.game.numRounds ==>
            && r == EndGameFold(recorded)
            && (r.Ok? <==> forall q :: q in w.game.players ==> CanSettle(w, q))
            && (r.Err? ==> r.error == NullDereference)
            && (r.Ok? ==> Folded(recorded, r.value)))
    ensures r.Ok? && r.value.game.status == Ended ==>
      forall q :: q in w.game.players ==>
        && q in w.game.playerStats
        && Lookup(r.value.dir, q).stats == Plus(Lookup(w.dir, q).stats, w.game.playerStats[q])
    ensures r.Ok? && r.value.game.status == Ended ==>
      forall q :: q !in w.game.players ==> Lookup(r.value.dir, q) == Lookup(w.dir, q)
    ensures r.Ok? && r.value.game.status == Ended ==>
      forall q :: q in w.game.players && Lookup(w.dir, q).currentGame != Some(w.game.id) ==>
        Lookup(r.value.dir, q).currentGame == Lookup(w.dir, q).currentGame
  {
    if w.game.status != SelectingAnswers then Err(NotAcceptingAnswers)
    else if |w.game.rounds| == 0 then Err(NotStarted)
    else
      var round := RecordSelection(Last(w.game.rounds), p, choice);
      var g := w.game.(rounds := UpdateLast(w.game.rounds, round));
      assert forall q :: CanSettle(World(g, w.dir), q) == CanSettle(w, q);
      if AllAnswersSelected(round, |g.players|) then
        if |g.rounds| < g.numRounds then Ok(World(g.(status := WaitingForReady), w.dir))
        else EndGameFold(World(g, w.dir))
      else Ok(World(g, w.dir))
  }

  /** A player declares readiness for the next round. As written, the membership check is
      inverted: a roster player is refused and anybody else goes on to ReadyStep. */
  function PlayerIsReady(w: World, p: PlayerId, question: Question, ellen: string): (r: Result<World>)
    ensures p in w.game.players ==> r == Err(NoSuchPlayer)
    ensures p !in w.game.players ==> r == ReadyStep(w, p, question, ellen)
  {
    if p in w.game.players then Err(NoSuchPlayer) else ReadyStep(w, p, question, ellen)
  }

  /** Readiness once the membership check has passed. The player joins the ready set;
      when the round budget is used up the game ends, and otherwise a new round starts
      as soon as the ready set is as large as the roster. The ready set is not cleared. */
  function ReadyStep(w: World, p: PlayerId, question: Question, ellen: string): (r: Result<World>)
    ensures w.game.status != WaitingForReady ==> r == Err(NotWaitingForReady)
    ensures r.Ok? ==> w.game.status == WaitingForReady
    ensures r.Ok? ==> r.value.game.readyPlayers == w.game.readyPlayers + {p}
    ensures r.Ok? && |w.game.rounds| == w.game.numRounds ==>
      r.value.game == w.game.(readyPlayers := w.game.readyPlayers + {p}, status := Ended)
    ensures r.Ok? && |w.game.rounds| != w.game.numRounds
            && |w.game.readyPlayers + {p}| == |w.game.players| ==>
      r.value == World(StartNewRound(w.game.(readyPlayers := w.game.readyPlayers + {p}), question, ellen), w.dir)
    ensures r.Ok? && |w.game.rounds| != w.game.numRounds
            && |w.game.readyPlayers + {p}| != |w.game.players| ==>
      r.value == World(w.game.(readyPlayers := w.game.readyPlayers + {p}), w.dir)
    ensures w.game.status == WaitingForReady && |w.game.rounds| != w.game.numRounds ==> r.Ok?
    ensures w.game.status == WaitingForReady && |w.game.rounds| == w.game.numRounds ==>
      (r.Ok? <==> forall q :: q in w.game.players ==> CanSettle(w, q))
    ensures r.Ok? && |w.game.rounds| == w.game.numRounds ==>
      forall q :: q in w.game.players ==>
        Lookup(r.value.dir, q).stats == Plus(Lookup(w.dir, q).stats, w.game.playerStats[q])
    ensures w.game.status == WaitingForReady && |w.game.rounds| == w.game.numRounds ==>
      && r == EndGameFold(World(w.game.(readyPlayers := w.game.readyPlayers + {p}), w.dir))
      && (r.Err? ==> r.error == NullDereference)
    ensures r.Ok? && |w.game.rounds| == w.game.numRounds ==>
      && Folded(World(w.game.(readyPlayers := w.game.readyPlayers + {p}), w.dir), r.value)
      && (forall q :: q !in w.game.players ==> Lookup(r.value.dir, q) == Lookup(w.dir, q))
      && (forall q :: q in w.game.players && Lookup(w.dir, q).currentGame != Some(w.game.id) ==>
            Lookup(r.value.dir, q).currentGame == Lookup(w.dir, q).currentGame)
  {
    if w.game.status != WaitingForReady then Err(NotWaitingForReady)
    else
      var g := w.game.(readyPlayers := w.game.readyPlayers + {p});
      if |g.rounds| == g.numRounds then EndGameFold(World(g, w.dir))
      else if |g.readyPlayers| == |g.players| then Ok(World(StartNewRound(g, question, ellen), w.dir))
      else Ok(World(g, w.dir))
  }

  /** A player withdraws readiness. As written, the membership check is inverted: a roster
      player is refused and anybody else goes on to UnreadyStep. */
  function PlayerIsNotReady(w: World, p: PlayerId): (r: Result<World>)
    ensures p in w.game.players ==> r == Err(NoSuchPlayer)
    ensures p !in w.game.players ==> r == UnreadyStep(w, p)
  {
    if p in w.game.players then Err(NoSuchPlayer) else UnreadyStep(w, p)
  }

  /** Withdrawal once the membership check has passed: in the waiting phase the player
      leaves the ready set and nothing else changes. */
  function UnreadyStep(w: World, p: PlayerId): (r: Result<World>)
    ensures r.Err? <==> w.game.status != WaitingForReady
    ensures r.Err? ==> r.error == NotWaitingForReady
    ensures r.Ok? ==> r.value == World(w.game.(readyPlayers := w.game.readyPlayers - {p}), w.dir)
    ensures r.Ok? ==> p !in r.value.game.readyPlayers
  {
    if w.game.status != WaitingForReady then Err(NotWaitingForReady)
    else Ok(World(w.game.(readyPlayers := w.game.readyPlayers - {p}), w.dir))
  }

  /** The leader ends a game that has not ended yet; the end-game fold does the rest. */
  function EndGame(w: World, requester: PlayerId): (r: Result<World>)
    ensures w.game.status == Ended ==> r == Err(AlreadyEnded)
    ensures w.game.status != Ended && requester != w.game.leader ==> r == Err(NotLeader)
    ensures w.game.status != Ended && requester == w.game.leader ==>
      (r.Ok? <==> forall q :: q in w.game.players ==> CanSettle(w, q))
    ensures r.Ok? ==> r.value.game == w.game.(status := Ended)
    ensures r.Ok? ==> forall q :: q in w.game.players ==>
      Lookup(r.value.dir, q).stats == Plus(Lookup(w.dir, q).stats, w.game.playerStats[q])
      && Lookup(r.value.dir, q).currentGame != Some(w.game.id)
    ensures r.Ok? ==> forall q :: q in w.game.players && Lookup(w.dir, q).currentGame == Some(w.game.id) ==>
      Lookup(r.value.dir, q).currentGame == None
    ensures w.game.status != Ended && requester == w.game.leader ==> r == EndGameFold(w)
    ensures r.Ok? ==> Folded(w, r.value)
    ensures r.Ok? ==> forall q :: q !in w.game.players ==> Lookup(r.value.dir, q) == Lookup(w.dir, q)
    ensures r.Ok? ==> forall q :: q in w.game.players && Lookup(w.dir, q).currentGame != Some(w.game.id) ==>
      Lookup(r.value.dir, q).currentGame == Lookup(w.dir, q).currentGame
  {
    if w.game.status == Ended then Err(AlreadyEnded)
    else if requester != w.game.leader then Err(NotLeader)
    else EndGameFold(w)
  }
}

=== FILE: pairs.dfy ===
/** Operations related to their partners: an operation and the one that undoes it, and an
    update related to the lookup that observes it. */
module OperationPairs {
  import opened Basics
  import opened Stats
  import opened Rounds
  import opened GameState
  import opened GameOps

  /** Joining and then leaving a joining game that keeps another player restores the game
      exactly; the leaver's back-reference ends up cleared and the leaver's statistics and
      every other player's record are untouched. */
  lemma JoinThenLeave(w: World, p: PlayerId)
    requires w.game.status == PlayersJoining && p !in w.game.players && |w.game.players| >= 1
    ensures AddPlayer(w, p).Ok?
    ensures RemovePlayer(AddPlayer(w, p).value, p).Ok?
    ensures var w' := RemovePlayer(AddPlayer(w, p).value, p).value;
      && w'.game == w.game
      && Lookup(w'.dir, p) == Lookup(w.dir, p).(currentGame := None)
      && forall q :: q != p ==> Lookup(w'.dir, q) == Lookup(w.dir, q)
  {
  }

  /** The round a new round appends is the one the current-round lookup then returns. */
  lemma CurrentRoundAfterNewRound(g: Game, q: Question, e: string)
    ensures CurrentRound(StartNewRound(g, q, e)).Ok?
    ensures var r := CurrentRound(StartNewRound(g, q, e)).value;
      && r.number == |g.rounds| + 1 && r.question == q
      && r.answers == map[] && r.selections == map[]
      && r.ellenAnswer == (if g.hasEllen then Some(e) else None)
    ensures CurrentRound(g).Ok? ==> StartNewRound(g, q, e).rounds[|g.rounds| - 1] == CurrentRound(g).value
  {
  }

  /** After a successful submission the current round holds exactly the submitted answer
      for the player, and every other player's answer as before. */
  lemma CurrentRoundAfterSubmit(w: World, p: PlayerId, text: string)
    requires SubmitAnswer(w, p, text).Ok?
    ensures CurrentRound(SubmitAnswer(w, p, text).value.game).Ok?
    ensures var r := CurrentRound(SubmitAnswer(w, p, text).value.game).value;
      var before := CurrentRound(w.game).value;
      && p in r.answers && r.answers[p].text == text
      && r.answers - {p} == before.answers - {p}
      && r.number == before.number && r.selections == before.selections
  {
  }

  /** Readiness declared and then withdrawn by the same player, in a waiting game that
      neither ends nor starts a round on it, restores the game exactly. */
  lemma ReadyThenNotReady(w: World, p: PlayerId, q: Question, e: string)
    requires p !in w.game.players && w.game.status == WaitingForReady && p !in w.game.readyPlayers
    requires |w.game.rounds| != w.game.numRounds && |w.game.readyPlayers + {p}| != |w.game.players|
    ensures PlayerIsReady(w, p, q, e).Ok?
    ensures PlayerIsNotReady(PlayerIsReady(w, p, q, e).value, p) == Ok(w)
  {
  }

  /** The explicit end folds the statistics once: a second end of the same game is refused,
      so the lifetime statistics after it stay those of the first. */
  lemma EndGameOnlyOnce(w: World, leader: PlayerId, anyone: PlayerId)
    requires EndGame(w, leader).Ok?
    ensures EndGame(EndGame(w, leader).value, anyone) == Err(AlreadyEnded)
    ensures forall q :: q in w.game.players ==>
      Lookup(EndGame(w, leader).value.dir, q).stats == Plus(Lookup(w.dir, q).stats, w.game.playerStats[q])
  {
  }
}

=== FILE: rounds.dfy ===
/** One question cycle of a game.
    The round class of the repository is not part of this model; this module is an abstract
    stand-in built on one ASSUMPTION: a round keeps answers and selections keyed by player
    (a later entry by the same player overwrites the earlier one), and "all submitted" /
    "all selected" for a roster of n players means exactly n distinct players have an entry. */
module Rounds {
  import opened Basics

  /** A prompt and its correct answer, drawn from the game's mode by an external collaborator. */
  datatype Question = Question(prompt: string, correctAnswer: string)

  /** An answer text submitted by a player. */
  datatype PlayerAnswer = PlayerAnswer(author: PlayerId, text: string)

  datatype Round = Round(
    number: int,
    question: Question,
    ellenAnswer: Option<string>,
    answers: map<PlayerId, PlayerAnswer>,
    selections: map<PlayerId, PlayerAnswer>)

  /** A round as created: no answers and no selections yet. */
  function NewRound(number: int, question: Question, ellenAnswer: Option<string>): (r: Round)
    ensures r.number == number && r.question == question && r.ellenAnswer == ellenAnswer
    ensures |r.answers| == 0 && |r.selections| == 0
  {
    Round(number, question, ellenAnswer, map[], map[])
  }

  /** Records `text` as the answer of `p`, replacing an earlier answer of `p`. */
  function RecordAnswer(r: Round, p: PlayerId, text: string): (r': Round)
    ensures p in r'.answers && r'.answers[p] == PlayerAnswer(p, text)
    ensures forall q :: q != p ==> (q in r'.answers <==> q in r.answers)
    ensures forall q :: q != p && q in r.answers ==> r'.answers[q] == r.answers[q]
    ensures |r'.answers| == if p in r.answers then |r.answers| else |r.answers| + 1
    ensures r' == r.(answers := r'.answers)
  {
    r.(answers := r.answers[p := PlayerAnswer(p, text)])
  }

  /** Records that `p` selected `choice`, replacing an earlier selection of `p`. */
  function RecordSelection(r: Round, p: PlayerId, choice: PlayerAnswer): (r': Round)
    ensures p in r'.selections && r'.selections[p] == choice
    ensures forall q :: q != p ==> (q in r'.selections <==> q in r.selections)
    ensures forall q :: q != p && q in r.selections ==> r'.selections[q] == r.selections[q]
    ensures |r'.selections| == if p in r.selections then |r.selections| else |r.selections| + 1
    ensures r' == r.(selections := r'.selections)
  {
    r.(selections := r.selections[p := choice])
  }

  predicate AllAnswersSubmitted(r: Round, rosterSize: int)
  {
    |r.answers| == rosterSize
  }

  predicate AllAnswersSelected(r: Round, rosterSize: int)
  {
    |r.selections| == rosterSize
  }
}

=== FILE: state.dfy ===
/** The state of one game and the part of each player's state that the game touches. */
module GameState {
  import opened Basics
  import opened Stats
  import opened Rounds

  datatype GameStatus =
    | PlayersJoining
    | SubmittingAnswers
    | SelectingAnswers
    | WaitingForReady
    | Ended

  /** The game aggregate. `mode` names the game mode the questions are drawn from;
      `playerStats` is the per-game delta of each player, filled in outside this class. */
  datatype Game = Game(
    id: GameId,
    mode: string,
    players: set<PlayerId>,
    rounds: seq<Round>,
    numRounds: int,
    hasEllen: bool,
    leader: PlayerId,
    playerStats: map<PlayerId, Stat>,
    status: GameStatus,
    readyPlayers: set<PlayerId>)

  /** What the game reads and writes of a player: the back-reference to the player's
      current game (None for null) and the lifetime statistics. */
  datatype PlayerRecord = PlayerRecord(currentGame: Option<GameId>, stats: Stat)

  /** The players a game may touch, by identifier. */
  type Directory = map<PlayerId, PlayerRecord>

  /** A game together with the players' records it reads and writes. */
  datatype World = World(game: Game, dir: Directory)

  /** The record of `p`; a player missing from the directory reads as a freshly created
      player, with no current game and zero statistics. */
  function Lookup(dir: Directory, p: PlayerId): PlayerRecord
  {
    if p in dir then dir[p] else PlayerRecord(None, Zero)
  }

  /** Points `p`'s current game at `g`, leaving everything else as it was. */
  function SetCurrentGame(dir: Directory, p: PlayerId, g: Option<GameId>): (d: Directory)
    ensures Lookup(d, p) == Lookup(dir, p).(currentGame := g)
    ensures forall q :: q != p ==> Lookup(d, q) == Lookup(dir, q)
  {
    dir[p := Lookup(dir, p).(currentGame := g)]
  }

  /** The most recent round. */
  function Last(rounds: seq<Round>): Round
    requires |rounds| > 0
  {
    rounds[|rounds| - 1]
  }

  /** Replaces the most recent round, keeping the earlier ones. */
  function UpdateLast(rounds: seq<Round>, r: Round): (rs: seq<Round>)
    requires |rounds| > 0
    ensures |rs| == |rounds| && Last(rs) == r
    ensures forall i :: 0 <= i < |rounds| - 1 ==> rs[i] == rounds[i]
  {
    rounds[|rounds| - 1 := r]
  }
}

=== FILE: stats.dfy ===
/** Player statistics: the lifetime counters on a player and the per-game deltas a game keeps. */
module Stats {

  /** The three counters of a Stat. Java ints; wrap-around is not modelled. */
  datatype Stat = Stat(correctAnswerCount: int, gamePsychedCount: int, psychedOthersCount: int)

  /** A freshly created player's lifetime statistics. */
  const Zero := Stat(0, 0, 0)

  /** Component-wise sum: lifetime counters after a game's delta is folded in. */
  function Plus(lifetime: Stat, delta: Stat): Stat
  {
    Stat(lifetime.correctAnswerCount + delta.correctAnswerCount,
         lifetime.gamePsychedCount + delta.gamePsychedCount,
         lifetime.psychedOthersCount + delta.psychedOthersCount)
  }
}

=== FILE: transitions.dfy ===
/** The game as a state machine: every operation as one step, the edges a step may take
    between statuses, and the invariant that every game created in PLAYERS_JOINING keeps. */
module Transitions {
  import opened Basics
  import opened Rounds
  import opened GameState
  import opened GameOps

  /** One request against a game, with the values the external collaborators supply
      (the drawn question and Ellen answer) carried along where a new round may start. */
  datatype Op =
    | Join(p: PlayerId)
    | Leave(p: PlayerId)
    | Start(p: PlayerId, question: Question, ellen: string)
    | Submit(p: PlayerId, text: string)
    | Select(p: PlayerId, choice: PlayerAnswer)
    | Ready(p: PlayerId, question: Question, ellen: string)
    | NotReady(p: PlayerId)
    | Finish(p: PlayerId)

  function Apply(w: World, op: Op): Result<World>
  {
    match op
    case Join(p) => AddPlayer(w, p)
    case Leave(p) => RemovePlayer(w, p)
    case Start(p, q, e) => StartGame(w, p, q, e)
    case Submit(p, t) => SubmitAnswer(w, p, t)
    case Select(p, c) => SelectAnswer(w, p, c)
    case Ready(p, q, e) => PlayerIsReady(w, p, q, e)
    case NotReady(p) => PlayerIsNotReady(w, p)
    case Finish(p) => EndGame(w, p)
  }

  /** A run of requests; a refused request leaves the world as it was. */
  function Run(w: World, ops: seq<Op>): World
    decreases |ops|
  {
    if ops == [] then w
    else
      var next := match Apply(w, ops[0]) case Ok(w') => w' case Err(_) => w;
      Run(next, ops[1..])
  }

  /** The edges of the status machine: stay, move one phase on, loop back from waiting to
      a new round, or end from anywhere. */
  predicate Edge(s: GameStatus, s': GameStatus)
  {
    || s == s'
    || s' == Ended
    || (s == PlayersJoining && s' == SubmittingAnswers)
    || (s == SubmittingAnswers && s' == SelectingAnswers)
    || (s == SelectingAnswers && s' == WaitingForReady)
    || (s == WaitingForReady && s' == SubmittingAnswers)
  }

  /** Every successful step follows an edge of the status machine. */
  lemma StepFollowsEdge(w: World, op: Op)
    ensures Apply(w, op).Ok? ==> Edge(w.game.status, Apply(w, op).value.game.status)
  {
  }

  /** ENDED is terminal: only removing a player still succeeds on an ended game, and the
      game stays ended, with its rounds untouched. */
  lemma EndedIsAbsorbing(w: World, op: Op)
    requires w.game.status == Ended
    ensures Apply(w, op).Ok? ==> op.Leave? && Apply(w, op).value.game.status == Ended
    ensures Apply(w, op).Ok? ==> Apply(w, op).value.game.rounds == w.game.rounds
  {
  }

  /** Round i (from 0) carries the number i + 1. */
  ghost predicate NumberedFromOne(rounds: seq<Round>)
  {
    forall i :: 0 <= i < |rounds| ==> rounds[i].number == i + 1
  }

  predicate InPlay(s: GameStatus)
  {
    s == SubmittingAnswers || s == SelectingAnswers || s == WaitingForReady
  }

  /** What holds of every game created in PLAYERS_JOINING, whatever requests follow:
      the rounds are numbered 1, 2, ... ; a joining game has no rounds and nobody ready; a
      game in play has a current round; the round budget is exceeded only by the single
      first round of a game whose budget is below one; a waiting game has rounds left; and,
      because of the inverted checks, no roster player is ever ready. */
  ghost predicate Inv(g: Game)
  {
    && NumberedFromOne(g.rounds)
    && (g.status == PlayersJoining ==> g.rounds == [] && g.readyPlayers == {})
    && (InPlay(g.status) ==> |g.rounds| > 0)
    && (|g.rounds| <= g.numRounds || |g.rounds| <= 1)
    && (g.status == WaitingForReady ==> |g.rounds| < g.numRounds)
    && g.readyPlayers !! g.players
  }

  lemma CreateEstablishesInv(id: GameId, mode: string, numRounds: int, hasEllen: bool,
                             leader: PlayerId, dir: Directory)
    ensures Inv(Create(id, mode, numRounds, hasEllen, PlayersJoining, leader, dir).game)
  {
  }

  lemma NewRoundKeepsNumbering(g: Game, q: Question, e: string)
    requires NumberedFromOne(g.rounds)
    ensures NumberedFromOne(StartNewRound(g, q, e).rounds)
  {
  }

  lemma UpdateLastKeepsNumbering(rounds: seq<Round>, r: Round)
    requires |rounds| > 0 && NumberedFromOne(rounds) && r.number == Last(rounds).number
    ensures NumberedFromOne(UpdateLast(rounds, r))
  {
  }

  lemma StepPreservesInv(w: World, op: Op)
    requires Inv(w.game)
    ensures Apply(w, op).Ok? ==> Inv(Apply(w, op).value.game)
  {
    var g := w.game;
    match op
    case Leave(p) =>
      LeaveKeepsInv(w, p);
    case Start(p, q, e) =>
      NewRoundKeepsNumbering(g, q, e);
    case Submit(p, t) =>
      if |g.rounds| > 0 {
        UpdateLastKeepsNumbering(g.rounds, RecordAnswer(Last(g.rounds), p, t));
      }
    case Select(p, c) =>
      SelectKeepsInv(w, p, c);
    case Ready(p, q, e) =>
      ReadyKeepsInv(w, p, q, e);
    case _ =>
  }

  lemma LeaveKeepsInv(w: World, p: PlayerId)
    requires Inv(w.game)
    ensures RemovePlayer(w, p).Ok? ==> Inv(RemovePlayer(w, p).value.game)
  {
  }

  lemma SelectKeepsInv(w: World, p: PlayerId, c: PlayerAnswer)
    requires Inv(w.game)
    ensures SelectAnswer(w, p, c).Ok? ==> Inv(SelectAnswer(w, p, c).value.game)
  {
    if |w.game.rounds| > 0 {
      UpdateLastKeepsNumbering(w.game.rounds, RecordSelection(Last(w.game.rounds), p, c));
    }
  }

  lemma ReadyKeepsInv(w: World, p: PlayerId, q: Question, e: string)
    requires Inv(w.game)
    ensures PlayerIsReady(w, p, q, e).Ok? ==> Inv(PlayerIsReady(w, p, q, e).value.game)
  {
    NewRoundKeepsNumbering(w.game.(readyPlayers := w.game.readyPlayers + {p}), q, e);
  }

  /** The invariant holds after any run of requests. */
  lemma {:induction false} RunPreservesInv(w: World, ops: seq<Op>)
    requires Inv(w.game)
    ensures Inv(Run(w, ops).game)
    decreases |ops|
  {
    if ops != [] {
      StepPreservesInv(w, ops[0]);
      var next := match Apply(w, ops[0]) case Ok(w') => w' case Err(_) => w;
      RunPreservesInv(next, ops[1..]);
    }
  }

  /** Every game reachable from creation keeps the invariant. */
  lemma ReachableKeepsInv(id: GameId, mode: string, numRounds: int, hasEllen: bool,
                          leader: PlayerId, dir: Directory, ops: seq<Op>)
    ensures Inv(Run(Create(id, mode, numRounds, hasEllen, PlayersJoining, leader, dir), ops).game)
  {
    CreateEstablishesInv(id, mode, numRounds, hasEllen, leader, dir);
    RunPreservesInv(Create(id, mode, numRounds, hasEllen, PlayersJoining, leader, dir), ops);
  }

  /** Starting a game under the invariant yields exactly one round, numbered 1. */
  lemma StartGameFirstRound(w: World, requester: PlayerId, q: Question, e: string)
    requires Inv(w.game)
    ensures StartGame(w, requester, q, e).Ok? ==>
      var g := StartGame(w, requester, q, e).value.game;
      |g.rounds| == 1 && g.rounds[0].number == 1 && g.status == SubmittingAnswers
  {
  }

  /** In a reachable game the readiness path never takes its end-game branch: a waiting
      game always has rounds left, so readiness only records or starts a new round. */
  lemma ReadyNeverEndsGame(w: World, p: PlayerId, q: Question, e: string)
    requires Inv(w.game)
    ensures PlayerIsReady(w, p, q, e).Ok? ==> PlayerIsReady(w, p, q, e).value.game.status != Ended
    ensures PlayerIsReady(w, p, q, e).Ok? ==> PlayerIsReady(w, p, q, e).value.dir == w.dir
  {
  }

  /** The rounds before the current one are frozen: a step never changes them, and it never
      removes a round. */
  ghost predicate Frozen(before: seq<Round>, after: seq<Round>)
  {
    && |before| <= |after|
    && forall i :: 0 <= i < |before| - 1 ==> after[i] == before[i]
  }

  lemma StepFreezesRounds(w: World, op: Op)
    ensures Apply(w, op).Ok? ==> Frozen(w.game.rounds, Apply(w, op).value.game.rounds)
  {
  }

  lemma {:induction false} RunFreezesRounds(w: World, ops: seq<Op>)
    ensures Frozen(w.game.rounds, Run(w, ops).game.rounds)
    decreases |ops|
  {
    if ops != [] {
      StepFreezesRounds(w, ops[0]);
      var next := match Apply(w, ops[0]) case Ok(w') => w' case Err(_) => w;
      RunFreezesRounds(next, ops[1..]);
    }
  }

  /** Once ended, a game stays ended over any run of requests. */
  lemma {:induction false} RunStaysEnded(w: World, ops: seq<Op>)
    requires w.game.status == Ended
    ensures Run(w, ops).game.status == Ended
    decreases |ops|
  {
    if ops != [] {
      EndedIsAbsorbing(w, ops[0]);
      var next := match Apply(w, ops[0]) case Ok(w') => w' case Err(_) => w;
      RunStaysEnded(next, ops[1..]);
    }
  }
}
